=== FILE: README.md ===
# PayU payment flow of the video-credit generator, in Dafny

This project models three pieces of the application's payment flow:

- **The PayU payment-notification endpoint** (`handle-payu-webhook`). It is modelled as a pure function. Its input is an abstract request: the HTTP method, the optional merchant salt, and the form body. Its output is the HTTP response plus the ordered trace of steps the handler took:
  - read the salt;
  - parse the form;
  - log the masked parameter record;
  - check the signature;
  - update the payment status.

  The signature check (`verifyResponseHash`) and the database update (`DatabaseService.updatePaymentStatus`) live in files that are not part of this model. They are function parameters:
  - an uninterpreted predicate over the parameter map and the salt;
  - an update that either completes or throws with a message.
- **Credit gating in the sidebar**: missing credits count as 0; available videos are `floor(credits / 10)`; there are two thresholds (10 credits per video, 1 credit for the AI agent); and two click handlers choose a route.
- **The plans page**: the price table, the monthly/yearly amount, the subscription expiry computed from an injected `now`, and the subscribe handler's step sequence. The handler's outcomes are subscribed, not authenticated, or payment failed.

Modules: `Wrappers` (Option), `FormEntries` (ordered key/value entries and their last-value-wins reading), `Toasts`, `PayuWebhook`, `SidebarCredits`, `Plans`.

The model follows the code, which is more permissive than a webhook with 405, 400, 401, 404 or 409 answers and duplicate-delivery checks would be:

- The endpoint answers every failure with HTTP 500: missing salt, an unparseable body, a rejected signature, a missing `status` field, or a failed update. There is no 405, 400, 401, 404 or 409 path.
- Every non-OPTIONS method is processed like POST.
- An accepted notification that carries a `status` field issues exactly one unconditional status update; without `status` the lowercase call throws first and nothing is updated. There is no duplicate-delivery check and no atomic status-plus-credit transition; the payment record is not looked up first.

Two JavaScript details are modelled explicitly:

- The parameter object is filled by plain assignment, so every form key becomes a key of the map, `__proto__` included. The handler runs on Deno, which by default removes the `Object.prototype.__proto__` accessor, so that key is an ordinary property.
- `params.status.toLowerCase()` throws a `TypeError` when `status` is absent, and that lands in the 500 path.

On the plans page, the source ignores the result of the `subscriptions` insert. So the model has no insert-failure path: the form is submitted after the insert whatever its outcome.

## Model

| member | source | states |
|---|---|---|
| FormEntries.LastValue | src/pages/Plans.tsx:129 | reading key `k` from entries yields None exactly when no entry has key `k`, and otherwise the value of an entry with key `k` that no later entry overrides |
| FormEntries.LastValueAtLastOccurrence | src/pages/Plans.tsx:129 | whenever entry `i` is the last one with its key, the lookup of that key returns entry `i`'s value |
| PayuWebhook.Get | supabase/functions/handle-payu-webhook/index.ts:38-50 | reading a parameter gives a value exactly when the key is an own key of the map, and then the map's value; otherwise undefined |
| PayuWebhook.BuildParams | supabase/functions/handle-payu-webhook/index.ts:31-35 | the map has a key exactly when some form entry has it, and each key maps to the value of its last entry: a repeated key keeps the last value |
| PayuWebhook.ParamsAreLastValues | supabase/functions/handle-payu-webhook/index.ts:31-35 | for every key, the parameter map agrees with the independent last-value-wins reading of the form entries |
| PayuWebhook.SliceLast | supabase/functions/handle-payu-webhook/index.ts:47 | for a positive `n`, `slice(-n)` keeps the last `min(n, length)` characters, as a suffix of the input (the handler calls it with 4) |
| PayuWebhook.MaskCard | supabase/functions/handle-payu-webhook/index.ts:47 | a card number is logged iff it is present and non-empty, as `"****"` followed by its last `min(4, length)` characters; absent or empty logs undefined |
| PayuWebhook.MaskHidesAllButLastFour | supabase/functions/handle-payu-webhook/index.ts:47 | two card numbers with the same last four characters get the same masked record, so nothing before the last four leaks into the log |
| PayuWebhook.MaskNeverContainsFullNumber | supabase/functions/handle-payu-webhook/index.ts:47 | a star-free card number longer than four characters occurs at no position of its masked record |
| PayuWebhook.ShortCardLoggedWhole | supabase/functions/handle-payu-webhook/index.ts:47 | a non-empty card number of at most four characters appears whole in its masked record, right after the four stars |
| PayuWebhook.LogRecord | supabase/functions/handle-payu-webhook/index.ts:37-51 | twelve allow-listed fields are copied from the map under their own keys (`txnid`, `status`, `amount`, `mihpayid`, `mode`, `error`, `error_Message`, `bank_ref_num`, `bankcode`, `name_on_card`, `issuing_bank`, `cardtype`), undefined when absent, and `cardnum` is replaced by its mask |
| PayuWebhook.LogHidesCardBeyondLastFour | supabase/functions/handle-payu-webhook/index.ts:37-51 | two parameter maps that differ only in card numbers with the same last four characters produce the same log record |
| PayuWebhook.LowerChar | supabase/functions/handle-payu-webhook/index.ts:70 | an upper-case ASCII letter becomes the lower-case letter at the same alphabet position; every other character is kept |
| PayuWebhook.Lower | supabase/functions/handle-payu-webhook/index.ts:70 | lowercasing keeps the length, maps each character through the ASCII case map, and leaves no upper-case ASCII letter |
| PayuWebhook.Settle | supabase/functions/handle-payu-webhook/index.ts:69-94 | after an accepted signature: without `status` the error is raised and nothing is updated; with it exactly one update `(txnid, lowercase(status), params)` is made; the answer is the 200 success body echoing that txnid and status exactly when the update completed |
| PayuWebhook.LowerSuccess | supabase/functions/handle-payu-webhook/index.ts:70 | the status "SUCCESS" is stored and echoed as "success" |
| PayuWebhook.Fail | supabase/functions/handle-payu-webhook/index.ts:95-110 | a caught failure answers 500 with the JSON CORS headers and an error body carrying the failure's message, keeping the steps taken so far |
| PayuWebhook.Checked | supabase/functions/handle-payu-webhook/index.ts:17-62 | the steps up to the signature check are four, in pipeline order, with no update: the third logs the masked record of the built map and the fourth is the check with its verdict |
| PayuWebhook.LoggedRecordIsMasked | supabase/functions/handle-payu-webhook/index.ts:37-51 | once the form is parsed, the trace logs the record of the built map as its third step, every logged record is that one, and its card number is the masked one |
| PayuWebhook.Process | supabase/functions/handle-payu-webhook/index.ts:30-62 | an unparseable body fails right after parsing. Otherwise the masked record is logged and the signature is checked on the built map. A rejection fails with the signature error after those four steps; an acceptance appends the settlement to them. Steps stay in pipeline order, and an update only follows an accepting check |
| PayuWebhook.Handle | supabase/functions/handle-payu-webhook/index.ts:11-110 | status 500 exactly for error bodies; a success body exactly for non-OPTIONS 200 answers; no body exactly for OPTIONS. On every path the steps follow the pipeline order (salt, parse, log, verify, update), each at most once, and an update comes right after a signature check that accepted the same map |
| PayuWebhook.OptionsShortCircuits | supabase/functions/handle-payu-webhook/index.ts:11-13 | an OPTIONS request gets a 200 with the CORS headers and no body, and the trace is empty: no salt read, no parsing, no verification, no update |
| PayuWebhook.MissingSaltFailsClosed | supabase/functions/handle-payu-webhook/index.ts:23-28 | an absent or empty salt gives the 500 "salt not configured" error after reading the salt and nothing else |
| PayuWebhook.InvalidSignatureNeverUpdates | supabase/functions/handle-payu-webhook/index.ts:53-62 | when the verifier rejects the built map, the answer is the 500 signature error and the trace holds no update |
| PayuWebhook.VerifiedUpdatesOnce | supabase/functions/handle-payu-webhook/index.ts:69-77 | when the verifier accepts and `status` is present, the trace holds exactly one update, as its last step, with the txnid, the lowercased status and the whole map |
| PayuWebhook.MissingStatusNeverUpdates | supabase/functions/handle-payu-webhook/index.ts:70 | without a `status` field the answer is a 500 and the trace holds no update |
| PayuWebhook.SuccessEchoesUpdate | supabase/functions/handle-payu-webhook/index.ts:70-94 | a success body comes with the default 200 and JSON headers, follows exactly one update that completed, and echoes that update's txnid and status |
| PayuWebhook.CompletedUpdateSucceeds | supabase/functions/handle-payu-webhook/index.ts:69-94 | an accepted signature with a `status` field and an update that completes give the 200 success body with JSON headers, echoing the txnid and the lowercased status |
| PayuWebhook.UpdateFailureIsError | supabase/functions/handle-payu-webhook/index.ts:73-110 | an update that throws becomes a 500 error body carrying the thrown message |
| PayuWebhook.MethodIsIgnored | supabase/functions/handle-payu-webhook/index.ts:11-28 | apart from OPTIONS the method has no influence on the outcome: no method is refused |
| SidebarCredits.Credits | src/components/Sidebar.tsx:39-41 | a missing credits row or a null balance counts as 0 credits; a present balance is used as is |
| SidebarCredits.AvailableStories | src/components/Sidebar.tsx:39 | the number of videos `v` satisfies `10*v <= credits < 10*v + 10`, and is non-negative for a non-negative balance |
| SidebarCredits.EnoughCreditsIffOneVideo | src/components/Sidebar.tsx:39-40 | having at least 10 credits is the same as having at least one available video |
| SidebarCredits.VideoGateImpliesAIGate | src/components/Sidebar.tsx:40-41 | the video threshold implies the AI threshold, and the two differ exactly on balances 1 to 9 |
| SidebarCredits.HasEnoughCredits | src/components/Sidebar.tsx:40 | the video gate is open exactly when at least one video is available |
| SidebarCredits.HasMinimumCreditsForAI | src/components/Sidebar.tsx:41 | the AI gate is open exactly when the balance is positive |
| SidebarCredits.HandleCreateVideo | src/components/Sidebar.tsx:43-54 | the click goes to `/plans` with a destructive toast iff the balance is below 10; otherwise it goes to `/create-video` with no toast, which happens iff a video is available |
| SidebarCredits.HandleAIAgentClick | src/components/Sidebar.tsx:61-73 | the click goes to `/plans` with a destructive toast iff the balance is below 1; otherwise it goes to `/ai-agent` with no toast |
| SidebarCredits.VideoAccessImpliesAIAccess | src/components/Sidebar.tsx:43-73 | whenever the video click reaches video creation, the AI click reaches the AI agent |
| SidebarCredits.MissingCreditsGateEverything | src/components/Sidebar.tsx:39-73 | with no credits row or a null balance there are 0 videos and both clicks lead to `/plans` with their warnings |
| Plans.YearlyIsTenMonths | src/pages/Plans.tsx:27-82 | every plan in the table has a yearly price of ten times its monthly price |
| Plans.Amount | src/pages/Plans.tsx:96 | the yearly price is charged exactly under yearly billing and the monthly price otherwise |
| Plans.YearlyChargeIsTenMonthly | src/pages/Plans.tsx:16-96 | for a catalogue plan, the charge under the initial (yearly) billing is the yearly price, ten times the monthly charge |
| Plans.ValidUntil | src/pages/Plans.tsx:130-132 | the expiry lies 31,536,000,000 ms (365 days) after `now` when yearly and 2,592,000,000 ms (30 days) otherwise |
| Plans.FormFields | src/pages/Plans.tsx:115-121 | one hidden field per payment-data entry, in order, named by the key and holding the value |
| Plans.Subscribe | src/pages/Plans.tsx:84-145 | not authenticated exactly when there is no user, and then only the sign-in toast and the redirect to `/auth` happen; otherwise the first step is the payment call with the plan, the email and the charged amount; a failure adds only the error toast; a success inserts and then submits |
| Plans.SignedOutDoesNothing | src/pages/Plans.tsx:85-93 | without a user the handler ends on the redirect to `/auth`, with no payment call, no insert and no form submission |
| Plans.PaymentErrorStoresNothing | src/pages/Plans.tsx:98-144 | a payment call answered with an error, or with null data, ends on the error toast with no insert and no submission |
| Plans.StoredTxnIdIsSubmittedField | src/pages/Plans.tsx:115-136 | on payment data whose keys are distinct, as an object's entries are, the transaction id stored with the pending subscription is the value of the `txnid` field submitted to PayU |
| Plans.SubscribedRecordMatchesPayment | src/pages/Plans.tsx:96-136 | the pending record is inserted before the form is submitted. It has the user, the plan name and the amount sent to the payment function (yearly or monthly price), the returned `txnid`, and an expiry one billing period after `now`. The submitted form is a POST to the PayU action with one field per data entry |

## Left out

- The signature recipe (`verifyResponseHash`), the database service and the CORS header values are not part of this model. The verifier is an uninterpreted predicate parameter, and the update is a parameter that completes or throws. Whether the verifier itself can throw is not modelled, and the construction of the database service (index.ts:67), which runs between the signature check and the status read, is assumed not to throw.
- Deno's `serve`, the environment lookup and `req.formData()` decoding are I/O. The request carries the salt and either the decoded entries or a decoding failure. File-valued form entries are not modelled: every entry value is a string.
- Console logging is not modelled, except for the masked parameter record (index.ts:37-51). That includes the header log at lines 17-21 and the invalid-signature log at lines 57-60.
- The error body's `stack` field is dropped. Only `error` (the message) is kept.
- PayuWebhook.Lower: lowercases ASCII letters only. JavaScript's `toLowerCase` also maps non-ASCII letters, and that Unicode case table is not modelled.
- PayuWebhook.SliceLast: lengths count characters (Unicode scalar values), whereas JavaScript's `slice(-4)` counts UTF-16 code units. The two agree on card numbers of digits but differ on characters outside the Basic Multilingual Plane.
- PayuWebhook.MaskCard: keeps the last four characters, not the last four UTF-16 code units: "12345😀" is masked as "****345😀" here, whereas the handler logs "****45😀".
- PayuWebhook.ShortCardLoggedWhole: "at most four" counts characters, not UTF-16 code units. A number such as "1😀😀" is logged whole here, whereas the handler keeps only its last four code units.
- PayuWebhook.MaskNeverContainsFullNumber: stated only for card numbers without a `*` and longer than four characters. A number made of stars can occur in its own mask, and a number of four or fewer characters is logged whole (`ShortCardLoggedWhole`).
- PayuWebhook.BuildParams: assumes the Deno default in which `__proto__` is an ordinary key. On a runtime that keeps the `Object.prototype.__proto__` accessor (a browser, Node), an entry named `__proto__` would be dropped instead of copied.
- The payment records, the credit grant and any reconciliation state machine are not in the modelled code. An accepted notification with a `status` field issues a single unconditional update (and none without it), so the model has no idempotency, conflict or atomicity property to prove.
- The sidebar's rendering, tooltips, disabled buttons, the dashboard and sign-out handlers, and the React Query fetching are left out. The credits row is an input, and balances are integers: a non-integer or NaN balance is not modelled.
- On the plans page, the following are not modelled because they are presentation only:
  - display price strings (such as "US$15.83"), credit and video labels, and feature lists;
  - the billing-toggle rendering.
- On the plans page, the user query and `Date.now()` are inputs. `valid_until` is kept as milliseconds; its ISO-8601 string rendering is not modelled.
- The payment data's type admits repeated keys, which `Object.entries` never yields. `FormEntries.DistinctKeys` states the restriction where a property depends on it (`StoredTxnIdIsSubmittedField`); elsewhere the model reads a repeated key's last value.
- The payment data is given as `Object.entries` order. JavaScript's own key ordering, where integer-like keys come first, is not modelled.
- The integrations page, the story-type select and the splash-cursor animation are UI with no payment logic, so they are not modelled.

=== FILE: common.dfy ===
/** Optional values: the model's stand-in for JavaScript's `undefined`/`null`. */
module Wrappers {

  datatype Option<+T> = None | Some(value: T) {

    /**
     The value if present, otherwise the given default. For an integer balance
     with default 0 this is JavaScript's `x || 0`, since a present 0 gives 0 either way.
     */
    function GetOr(default: T): T {
      match this
      case Some(v) => v
      case None => default
    }
  }
}

/**
 Ordered key/value entry lists: the entries of a submitted form, or the
 enumeration of a plain JavaScript object's own properties.
 */
module FormEntries {
  import opened Wrappers

  /** One (key, value) entry; values are always strings here. */
  type Entry = (string, string)

  /** Some entry carries key `k`. */
  predicate HasKey(entries: seq<Entry>, k: string) {
    exists i :: 0 <= i < |entries| && entries[i].0 == k
  }

  /** No later entry repeats the key of entry `i`. */
  predicate IsLastOccurrence(entries: seq<Entry>, i: int)
    requires 0 <= i < |entries|
  {
    forall j :: i < j < |entries| ==> entries[j].0 != entries[i].0
  }

  /** No two entries share a key, as with the entries of a JavaScript object. */
  predicate DistinctKeys(entries: seq<Entry>) {
    forall i, j :: 0 <= i < j < |entries| ==> entries[i].0 != entries[j].0
  }

  /** With distinct keys every entry is the last occurrence of its key. */
  lemma DistinctKeysAllLast(entries: seq<Entry>, i: int)
    requires DistinctKeys(entries) && 0 <= i < |entries|
    ensures IsLastOccurrence(entries, i)
  {
  }

  /** A key occurs in a non-empty list iff it occurs before the last entry or is the last entry's key. */
  lemma HasKeySplitLast(entries: seq<Entry>, k: string)
    requires |entries| > 0
    ensures HasKey(entries, k) <==> HasKey(entries[..|entries| - 1], k) || entries[|entries| - 1].0 == k
  {
    var prefix := entries[..|entries| - 1];
    if HasKey(entries, k) {
      var i :| 0 <= i < |entries| && entries[i].0 == k;
      if i < |prefix| { assert prefix[i].0 == k; }
    }
    if HasKey(prefix, k) {
      var i :| 0 <= i < |prefix| && prefix[i].0 == k;
      assert entries[i].0 == k;
    }
  }

  /** A last occurrence before the final entry is still a last occurrence once that entry is dropped. */
  lemma LastOccurrenceInPrefix(entries: seq<Entry>, i: int)
    requires 0 <= i < |entries| - 1
    requires IsLastOccurrence(entries, i)
    ensures IsLastOccurrence(entries[..|entries| - 1], i)
  {
  }

  /**
   The value that a later-assignment-wins copy of `entries` associates with
   `k`: the value of the last entry whose key is `k`, or None when no entry
   has that key.
   */
  function LastValue(entries: seq<Entry>, k: string): (r: Option<string>)
    ensures r.None? <==> !HasKey(entries, k)
    ensures r.Some? ==>
      exists i :: 0 <= i < |entries| && entries[i] == (k, r.value) && IsLastOccurrence(entries, i)
  {
    if |entries| == 0 then None
    else if entries[|entries| - 1].0 == k then
      var i := |entries| - 1;
      assert entries[i] == (k, entries[i].1) && IsLastOccurrence(entries, i);
      Some(entries[i].1)
    else
      var prefix := entries[..|entries| - 1];
      var r := LastValue(prefix, k);
      assert HasKey(entries, k) <==> HasKey(prefix, k) by { HasKeySplitLast(entries, k); }
      if r.Some? then
        var i :| 0 <= i < |prefix| && prefix[i] == (k, r.value) && IsLastOccurrence(prefix, i);
        assert entries[i] == (k, r.value) && IsLastOccurrence(entries, i);
        r
      else r
  }

  /** A last occurrence of `k` determines LastValue, whichever index it is found at. */
  lemma {:induction false} LastValueAtLastOccurrence(entries: seq<Entry>, i: int)
    requires 0 <= i < |entries|
    requires IsLastOccurrence(entries, i)
    ensures LastValue(entries, entries[i].0) == Some(entries[i].1)
  {
    var k := entries[i].0;
    if i < |entries| - 1 {
      var prefix := entries[..|entries| - 1];
      assert entries[|entries| - 1].0 != k;
      assert prefix[i] == entries[i];
      LastValueAtLastOccurrence(prefix, i);
    }
  }
}

/** Notifications shown to the user by the front-end pages. */
module Toasts {

  /** A toast: title, description and whether it uses the "destructive" variant. */
  datatype Toast = Toast(title: string, description: string, destructive: bool)
}

=== FILE: payu_webhook.dfy ===
/**
 The PayU payment-notification endpoint (`handle-payu-webhook`).

 A request is handled by a pure function returning the HTTP response and the
 ordered trace of effects the handler performed. The signature check and the
 database update live in code that is not part of this model, so they are
 parameters: `verify` is an uninterpreted predicate over the parameter map and
 the merchant salt; `update` is the payment-status update, returning None when
 it completes and Some(message) when it throws.
 */
module PayuWebhook {
  import opened Wrappers
  import opened FormEntries

  /** The parameter map the handler builds from the form body. */
  type Params = map<string, string>

  /** The request body as `req.formData()` sees it. */
  datatype FormBody =
    | FormData(entries: seq<Entry>)      // the ordered form entries
    | Unparseable(reason: string)        // formData() rejects the body

  /** What the handler reads from the request and its environment. */
  datatype Request = Request(httpMethod: string, merchantSalt: Option<string>, body: FormBody)

  /** Response headers: the CORS headers alone, or with a JSON content type. */
  datatype Headers = Cors | CorsJson

  datatype Body =
    | NoBody
    | SuccessBody(message: string, txnId: Option<string>, status: string)
    | ErrorBody(message: string)

  datatype Response = Response(status: int, headers: Headers, body: Body)

  /** The allow-listed parameter record written to the log, card number masked. */
  datatype ParamsLog = ParamsLog(
    txnId: Option<string>, status: Option<string>, amount: Option<string>,
    mihpayid: Option<string>, mode: Option<string>, error: Option<string>,
    errorMessage: Option<string>, bankRefNum: Option<string>, bankcode: Option<string>,
    cardnum: Option<string>, nameOnCard: Option<string>, issuingBank: Option<string>,
    cardtype: Option<string>)

  /** Observable steps of the handler, in the order they can happen. */
  datatype Effect =
    | ReadSalt
    | ParseForm
    | LogParams(record: ParamsLog)
    | VerifySignature(params: Params, salt: string, valid: bool)
    | UpdatePaymentStatus(txnId: Option<string>, status: string, params: Params)

  datatype Outcome = Outcome(response: Response, trace: seq<Effect>)

  const OptionsMethod := "OPTIONS"
  const SaltMissingMessage := "PayU merchant salt not configured"
  const InvalidSignatureMessage := "Invalid webhook signature"
  /** The TypeError thrown by `params.status.toLowerCase()` when `status` is absent. */
  const StatusMissingMessage := "Cannot read properties of undefined (reading 'toLowerCase')"
  const SuccessMessage := "Webhook processed successfully"

  /** Lookup of an own property, `undefined` when absent. */
  function Get(params: Params, k: string): (r: Option<string>)
    ensures r.Some? <==> k in params
    ensures r.Some? ==> r.value == params[k]
  {
    if k in params then Some(params[k]) else None
  }

  /** The map has a key exactly when some entry has it. */
  ghost predicate KeysFromEntries(form: seq<Entry>, params: Params) {
    forall k :: k in params <==> HasKey(form, k)
  }

  /** Each key's last entry supplies its value. */
  ghost predicate LastEntriesWin(form: seq<Entry>, params: Params) {
    forall i :: 0 <= i < |form| && IsLastOccurrence(form, i) ==>
      form[i].0 in params && params[form[i].0] == form[i].1
  }

  /** Copying one more entry keeps the key set equal to the entries' keys. */
  lemma CopyEntryKeys(prefix: seq<Entry>, k: string, v: string, before: Params)
    requires KeysFromEntries(prefix, before)
    ensures KeysFromEntries(prefix + [(k, v)], before[k := v])
  {
    var form := prefix + [(k, v)];
    var params := before[k := v];
    assert form[..|form| - 1] == prefix;
    forall key ensures key in params <==> HasKey(form, key) {
      HasKeySplitLast(form, key);
    }
  }

  /** Copying one more entry keeps every key's last entry as its value. */
  lemma CopyEntryValues(prefix: seq<Entry>, k: string, v: string, before: Params)
    requires KeysFromEntries(prefix, before) && LastEntriesWin(prefix, before)
    ensures LastEntriesWin(prefix + [(k, v)], before[k := v])
  {
    var form := prefix + [(k, v)];
    var params := before[k := v];
    forall i | 0 <= i < |form| && IsLastOccurrence(form, i)
      ensures form[i].0 in params && params[form[i].0] == form[i].1
    {
      if i < |prefix| {
        assert form[..|form| - 1] == prefix;
        LastOccurrenceInPrefix(form, i);
        assert prefix[i] == form[i];
        assert form[|form| - 1].0 == k;
      }
    }
  }

  /** Copying the last entry over the map of the others keeps the map faithful to the entries. */
  lemma CopyLastEntry(form: seq<Entry>, before: Params)
    requires |form| > 0
    requires KeysFromEntries(form[..|form| - 1], before) && LastEntriesWin(form[..|form| - 1], before)
    ensures KeysFromEntries(form, before[form[|form| - 1].0 := form[|form| - 1].1])
    ensures LastEntriesWin(form, before[form[|form| - 1].0 := form[|form| - 1].1])
  {
    var prefix := form[..|form| - 1];
    var (k, v) := form[|form| - 1];
    assert prefix + [(k, v)] == form;
    CopyEntryKeys(prefix, k, v, before);
    CopyEntryValues(prefix, k, v, before);
  }

  /**
   The parameter map: each entry is copied in order, so every key of the form
   is present and a repeated key keeps its last value.
   */
  function BuildParams(form: seq<Entry>): (params: Params)
    ensures KeysFromEntries(form, params)
    ensures LastEntriesWin(form, params)
  {
    if |form| == 0 then map[]
    else
      var before := BuildParams(form[..|form| - 1]);
      CopyLastEntry(form, before);
      before[form[|form| - 1].0 := form[|form| - 1].1]
  }

  /** `s.slice(-n)`: the last `n` characters, or all of `s` when it is shorter. */
  function SliceLast(s: string, n: nat): (r: string)
    requires n > 0
    ensures |r| == if |s| < n then |s| else n
    ensures r == s[|s| - |r|..]
  {
    if |s| <= n then s else s[|s| - n..]
  }

  /**
   Card masking for the log: a present, non-empty card number becomes
   "****" followed by its last (at most four) characters; an absent or empty
   one is logged as undefined.
   */
  function MaskCard(cardnum: Option<string>): (r: Option<string>)
    ensures r.Some? <==> cardnum.Some? && cardnum.value != ""
    ensures r.Some? ==>
      var n := |cardnum.value|;
      var kept := if n < 4 then n else 4;
      |r.value| == 4 + kept && r.value == "****" + cardnum.value[n - kept..]
  {
    match cardnum
    case Some(c) => if c != "" then Some("****" + SliceLast(c, 4)) else None
    case None => None
  }

  /** The masked record depends only on the last four characters of a card number. */
  lemma MaskHidesAllButLastFour(c1: string, c2: string)
    requires |c1| >= 4 && |c2| >= 4
    requires c1[|c1| - 4..] == c2[|c2| - 4..]
    ensures MaskCard(Some(c1)) == MaskCard(Some(c2))
  {
  }

  /** `text` holds `c` starting at position `i`. */
  predicate OccursAt(text: string, c: string, i: nat) {
    i + |c| <= |text| && text[i..i + |c|] == c
  }

  /**
   A card number longer than four characters, none of them a star (digits, as
   card numbers are), occurs nowhere in its masked record.
   */
  lemma MaskNeverContainsFullNumber(c: string)
    requires |c| > 4
    requires forall k :: 0 <= k < |c| ==> c[k] != '*'
    ensures forall i: nat :: !OccursAt(MaskCard(Some(c)).value, c, i)
  {
    var record := MaskCard(Some(c)).value;
    forall i: nat
      ensures !OccursAt(record, c, i)
    {
      if i + |c| <= |record| {
        // a window that fits starts inside the "****" prefix, but c does not start with a star
        assert record[i..i + |c|][0] == record[i] == '*' != c[0];
      }
    }
  }

  /**
   A card number of at most four characters is logged whole: the mask keeps
   the last four characters, and a short number has no others.
   */
  lemma ShortCardLoggedWhole(c: string)
    requires 0 < |c| <= 4
    ensures OccursAt(MaskCard(Some(c)).value, c, 4)
  {
    assert SliceLast(c, 4) == c;
    var record := "****" + c;
    assert MaskCard(Some(c)).value == record;
    assert record[4..4 + |c|] == c;
  }

  /** The parameter record the handler logs; only the card number is transformed. */
  function LogRecord(params: Params): (r: ParamsLog)
    ensures r.cardnum == MaskCard(Get(params, "cardnum"))
    ensures r.txnId == Get(params, "txnid") && r.status == Get(params, "status")
    ensures r.amount == Get(params, "amount") && r.mihpayid == Get(params, "mihpayid")
    ensures r.mode == Get(params, "mode") && r.error == Get(params, "error")
    ensures r.errorMessage == Get(params, "error_Message") && r.bankRefNum == Get(params, "bank_ref_num")
    ensures r.bankcode == Get(params, "bankcode") && r.nameOnCard == Get(params, "name_on_card")
    ensures r.issuingBank == Get(params, "issuing_bank") && r.cardtype == Get(params, "cardtype")
  {
    ParamsLog(
      Get(params, "txnid"), Get(params, "status"), Get(params, "amount"),
      Get(params, "mihpayid"), Get(params, "mode"), Get(params, "error"),
      Get(params, "error_Message"), Get(params, "bank_ref_num"), Get(params, "bankcode"),
      MaskCard(Get(params, "cardnum")), Get(params, "name_on_card"), Get(params, "issuing_bank"),
      Get(params, "cardtype"))
  }

  /**
   The logged record exposes no more of the card number than its last four
   characters: maps that differ only in card numbers ending alike log the same.
   */
  lemma LogHidesCardBeyondLastFour(params: Params, c1: string, c2: string)
    requires |c1| >= 4 && |c2| >= 4
    requires c1[|c1| - 4..] == c2[|c2| - 4..]
    ensures LogRecord(params["cardnum" := c1]) == LogRecord(params["cardnum" := c2])
  {
    MaskHidesAllButLastFour(c1, c2);
  }

  /** `String.prototype.toLowerCase` on ASCII letters. */
  function LowerChar(c: char): (r: char)
    ensures 'A' <= c <= 'Z' ==> 'a' <= r <= 'z' && r as int - 'a' as int == c as int - 'A' as int
    ensures !('A' <= c <= 'Z') ==> r == c
  {
    if 'A' <= c <= 'Z' then (c as int + 32) as char else c
  }

  function Lower(s: string): (r: string)
    ensures |r| == |s|
    ensures forall i :: 0 <= i < |s| ==> r[i] == LowerChar(s[i])
    ensures forall i :: 0 <= i < |r| ==> !('A' <= r[i] <= 'Z')
  {
    if s == "" then "" else [LowerChar(s[0])] + Lower(s[1..])
  }

  /** The catch block: every failure is a 500 with the error's message. */
  function Fail(trace: seq<Effect>, message: string): (out: Outcome)
    ensures out.response.status == 500 && out.response.headers == CorsJson
    ensures out.response.body.ErrorBody? && out.response.body.message == message
    ensures out.trace == trace
  {
    Outcome(Response(500, CorsJson, ErrorBody(message)), trace)
  }

  /** Position of each effect kind in the handler's fixed pipeline. */
  function Stage(e: Effect): nat {
    match e
    case ReadSalt => 0
    case ParseForm => 1
    case LogParams(_) => 2
    case VerifySignature(_, _, _) => 3
    case UpdatePaymentStatus(_, _, _) => 4
  }

  /**
   Each effect belongs to a later stage than the one before it: the effects
   follow the pipeline order and none happens twice.
   */
  predicate InPipelineOrder(trace: seq<Effect>) {
    forall i :: 0 < i < |trace| ==> Stage(trace[i - 1]) < Stage(trace[i])
  }

  /** An update comes right after a signature check that accepted the very map it writes. */
  predicate UpdatesOnlyAfterAcceptance(trace: seq<Effect>) {
    forall i :: 0 <= i < |trace| && trace[i].UpdatePaymentStatus? ==>
      && i > 0
      && trace[i - 1].VerifySignature?
      && trace[i - 1].valid
      && trace[i - 1].params == trace[i].params
  }

  /** Whether the trace contains a database update. */
  predicate Updates(trace: seq<Effect>) {
    exists i :: 0 <= i < |trace| && trace[i].UpdatePaymentStatus?
  }

  /** The four steps up to and including the signature check. */
  function Checked(params: Params, salt: string, valid: bool): (steps: seq<Effect>)
    ensures |steps| == 4 && steps[3] == VerifySignature(params, salt, valid)
    ensures steps[2] == LogParams(LogRecord(params))
    ensures InPipelineOrder(steps) && UpdatesOnlyAfterAcceptance(steps) && !Updates(steps)
  {
    [ReadSalt, ParseForm, LogParams(LogRecord(params)), VerifySignature(params, salt, valid)]
  }

  /**
   The handler once the signature check has accepted `params`: lowercase the
   status (throwing when it is absent), update the payment, answer. The trace
   returned is the part after the signature check.
   */
  function Settle(params: Params, update: (Option<string>, string, Params) -> Option<string>): (out: Outcome)
    ensures out.response.status == 500 <==> out.response.body.ErrorBody?
    ensures out.response.status == 200 <==> out.response.body.SuccessBody?
    ensures "status" !in params ==> out == Fail([], StatusMissingMessage)
    ensures "status" in params ==>
      out.trace == [UpdatePaymentStatus(Get(params, "txnid"), Lower(params["status"]), params)]
    ensures out.response.body.SuccessBody? ==>
      && out.response.body.txnId == Get(params, "txnid")
      && out.response.body.status == Lower(params["status"])
      && update(Get(params, "txnid"), Lower(params["status"]), params).None?
    ensures "status" in params && update(Get(params, "txnid"), Lower(params["status"]), params).None? ==>
      out.response == Response(200, CorsJson, SuccessBody(SuccessMessage, Get(params, "txnid"), Lower(params["status"])))
  {
    if "status" !in params then Fail([], StatusMissingMessage)
    else
      var paymentStatus := Lower(params["status"]);
      var txnId := Get(params, "txnid");
      var trace := [UpdatePaymentStatus(txnId, paymentStatus, params)];
      match update(txnId, paymentStatus, params)
      case Some(message) => Fail(trace, message)
      case None =>
        Outcome(Response(200, CorsJson, SuccessBody(SuccessMessage, txnId, paymentStatus)), trace)
  }

  /** An accepted check followed by at most one update of the checked map keeps order and gating. */
  lemma AcceptedTraceWellFormed(params: Params, salt: string, tail: seq<Effect>)
    requires tail == [] || (|tail| == 1 && tail[0].UpdatePaymentStatus? && tail[0].params == params)
    ensures InPipelineOrder(Checked(params, salt, true) + tail)
    ensures UpdatesOnlyAfterAcceptance(Checked(params, salt, true) + tail)
  {
    var checked := Checked(params, salt, true);
    var t := checked + tail;
    forall i | 0 < i < |t| ensures Stage(t[i - 1]) < Stage(t[i]) {
      if i < 4 { assert t[i - 1] == checked[i - 1] && t[i] == checked[i]; }
    }
    forall i | 0 <= i < |t| && t[i].UpdatePaymentStatus?
      ensures i > 0 && t[i - 1].VerifySignature? && t[i - 1].valid && t[i - 1].params == t[i].params
    {
      // only the tail can hold an update, and it follows the accepting check at index 3
      assert i == 4;
    }
  }

  /** The handler after the salt check: parse, log, verify, then settle. */
  function Process(
    salt: string, body: FormBody,
    verify: (Params, string) -> bool,
    update: (Option<string>, string, Params) -> Option<string>): (out: Outcome)
    ensures out.response.status == 500 <==> out.response.body.ErrorBody?
    ensures out.response.status == 200 <==> out.response.body.SuccessBody?
    ensures InPipelineOrder(out.trace) && UpdatesOnlyAfterAcceptance(out.trace)
    ensures body.Unparseable? ==> out == Fail([ReadSalt, ParseForm], body.reason)
    ensures body.FormData? ==>
      var params := BuildParams(body.entries);
      && (!verify(params, salt) ==> out == Fail(Checked(params, salt, false), InvalidSignatureMessage))
      && (verify(params, salt) ==>
            && out.response == Settle(params, update).response
            && out.trace == Checked(params, salt, true) + Settle(params, update).trace)
  {
    match body
    case Unparseable(reason) => Fail([ReadSalt, ParseForm], reason)
    case FormData(entries) =>
      var params := BuildParams(entries);
      var valid := verify(params, salt);
      if !valid then Fail(Checked(params, salt, false), InvalidSignatureMessage)
      else
        var settled := Settle(params, update);
        AcceptedTraceWellFormed(params, salt, settled.trace);
        Outcome(settled.response, Checked(params, salt, true) + settled.trace)
  }

  /**
   The `serve` handler. On every path the effects follow the pipeline order,
   each at most once, and an update only ever comes right after a signature
   check that accepted the map it writes.
   */
  function Handle(
    req: Request,
    verify: (Params, string) -> bool,
    update: (Option<string>, string, Params) -> Option<string>): (out: Outcome)
    ensures out.response.status == 500 <==> out.response.body.ErrorBody?
    ensures out.response.body.SuccessBody? <==> req.httpMethod != OptionsMethod && out.response.status == 200
    ensures req.httpMethod == OptionsMethod <==> out.response.body.NoBody?
    ensures InPipelineOrder(out.trace)
    ensures UpdatesOnlyAfterAcceptance(out.trace)
  {
    if req.httpMethod == OptionsMethod then
      Outcome(Response(200, Cors, NoBody), [])
    else if req.merchantSalt.None? || req.merchantSalt.value == "" then
      Fail([ReadSalt], SaltMissingMessage)
    else
      Process(req.merchantSalt.value, req.body, verify, update)
  }

  /** An upper-case status is stored and echoed in lower case. */
  lemma LowerSuccess()
    ensures Lower("SUCCESS") == "success"
  {
  }

  /**
   Once the form is parsed, the handler logs exactly one parameter record, as
   its third step, and that record carries the masked card number, never the
   raw one.
   */
  lemma LoggedRecordIsMasked(
    req: Request, verify: (Params, string) -> bool, update: (Option<string>, string, Params) -> Option<string>)
    requires req.httpMethod != OptionsMethod
    requires req.merchantSalt.Some? && req.merchantSalt.value != ""
    requires req.body.FormData?
    ensures var params := BuildParams(req.body.entries);
      var trace := Handle(req, verify, update).trace;
      && |trace| >= 3 && trace[2] == LogParams(LogRecord(params))
      && forall i :: 0 <= i < |trace| && trace[i].LogParams? ==>
           && trace[i].record == LogRecord(params)
           && trace[i].record.cardnum == MaskCard(Get(params, "cardnum"))
  {
    var params := BuildParams(req.body.entries);
    var salt := req.merchantSalt.value;
    var valid := verify(params, salt);
    var trace := Handle(req, verify, update).trace;
    var checked := Checked(params, salt, valid);
    var tail := if valid then Settle(params, update).trace else [];
    assert trace == checked + tail;
    forall i | 0 <= i < |trace| && trace[i].LogParams?
      ensures trace[i].record == LogRecord(params)
    {
      // the settlement adds at most an update, so the log step is the checked one
      if i < 4 { assert trace[i] == checked[i]; }
    }
  }

  /** The number of database updates in a trace. */
  function UpdateCount(trace: seq<Effect>): (n: nat)
    ensures n <= |trace|
    ensures n == 0 <==> !Updates(trace)
  {
    if trace == [] then 0
    else
      var prefix := trace[..|trace| - 1];
      var last := trace[|trace| - 1];
      assert Updates(trace) <==> Updates(prefix) || last.UpdatePaymentStatus? by {
        if Updates(trace) {
          var i :| 0 <= i < |trace| && trace[i].UpdatePaymentStatus?;
          if i < |prefix| { assert prefix[i] == trace[i]; }
        }
        if Updates(prefix) {
          var i :| 0 <= i < |prefix| && prefix[i].UpdatePaymentStatus?;
          assert trace[i] == prefix[i];
        }
      }
      UpdateCount(prefix) + (if last.UpdatePaymentStatus? then 1 else 0)
  }

  /** A preflight request is answered with no body and the CORS headers, and nothing else happens. */
  lemma OptionsShortCircuits(
    req: Request, verify: (Params, string) -> bool, update: (Option<string>, string, Params) -> Option<string>)
    requires req.httpMethod == OptionsMethod
    ensures Handle(req, verify, update) == Outcome(Response(200, Cors, NoBody), [])
  {
  }

  /**
   Fail closed: without a (non-empty) merchant salt the answer is a 500 and the
   only step taken is reading the salt: no parsing, no verification, no update.
   */
  lemma MissingSaltFailsClosed(
    req: Request, verify: (Params, string) -> bool, update: (Option<string>, string, Params) -> Option<string>)
    requires req.httpMethod != OptionsMethod
    requires req.merchantSalt == None || req.merchantSalt == Some("")
    ensures Handle(req, verify, update) == Outcome(Response(500, CorsJson, ErrorBody(SaltMissingMessage)), [ReadSalt])
  {
  }

  /** The parameter map agrees with the last-value-wins reading of the form entries. */
  lemma {:induction false} ParamsAreLastValues(form: seq<Entry>, k: string)
    ensures Get(BuildParams(form), k) == LastValue(form, k)
  {
    var params := BuildParams(form);
    var r := LastValue(form, k);
    if r.Some? {
      var i :| 0 <= i < |form| && form[i] == (k, r.value) && IsLastOccurrence(form, i);
      assert params[form[i].0] == form[i].1;
    }
  }

  /** A rejected signature yields the 500 error and no database update. */
  lemma InvalidSignatureNeverUpdates(
    req: Request, verify: (Params, string) -> bool, update: (Option<string>, string, Params) -> Option<string>)
    requires req.httpMethod != OptionsMethod
    requires req.merchantSalt.Some? && req.merchantSalt.value != ""
    requires req.body.FormData?
    requires !verify(BuildParams(req.body.entries), req.merchantSalt.value)
    ensures Handle(req, verify, update).response == Response(500, CorsJson, ErrorBody(InvalidSignatureMessage))
    ensures UpdateCount(Handle(req, verify, update).trace) == 0
  {
    var params := BuildParams(req.body.entries);
    assert Handle(req, verify, update).trace == Checked(params, req.merchantSalt.value, false);
  }

  /**
   An accepted signature with a `status` field leads to exactly one update, the
   last step, with the transaction id, the lowercased status and the full map.
   */
  lemma VerifiedUpdatesOnce(
    req: Request, verify: (Params, string) -> bool, update: (Option<string>, string, Params) -> Option<string>)
    requires req.httpMethod != OptionsMethod
    requires req.merchantSalt.Some? && req.merchantSalt.value != ""
    requires req.body.FormData?
    requires verify(BuildParams(req.body.entries), req.merchantSalt.value)
    requires HasKey(req.body.entries, "status")
    ensures var params := BuildParams(req.body.entries);
      var trace := Handle(req, verify, update).trace;
      && UpdateCount(trace) == 1
      && trace[|trace| - 1] == UpdatePaymentStatus(Get(params, "txnid"), Lower(params["status"]), params)
  {
    var params := BuildParams(req.body.entries);
    var checked := Checked(params, req.merchantSalt.value, true);
    var trace := Handle(req, verify, update).trace;
    assert trace == checked + [UpdatePaymentStatus(Get(params, "txnid"), Lower(params["status"]), params)];
    assert trace[..|trace| - 1] == checked;
  }

  /**
   An accepted signature without a `status` field fails on the lowercase call:
   a 500 and no update.
   */
  lemma MissingStatusNeverUpdates(
    req: Request, verify: (Params, string) -> bool, update: (Option<string>, string, Params) -> Option<string>)
    requires req.httpMethod != OptionsMethod
    requires req.merchantSalt.Some? && req.merchantSalt.value != ""
    requires req.body.FormData?
    requires !HasKey(req.body.entries, "status")
    ensures Handle(req, verify, update).response.status == 500
    ensures UpdateCount(Handle(req, verify, update).trace) == 0
  {
    var params := BuildParams(req.body.entries);
    var salt := req.merchantSalt.value;
    var trace := Handle(req, verify, update).trace;
    if verify(params, salt) {
      assert trace == Checked(params, salt, true) + [];
      assert Checked(params, salt, true) + [] == Checked(params, salt, true);
    } else {
      assert trace == Checked(params, salt, false);
    }
  }

  /**
   A success answer is the default 200 whose transaction id and status are
   those of the single update the handler made, and that update completed.
   */
  lemma SuccessEchoesUpdate(
    req: Request, verify: (Params, string) -> bool, update: (Option<string>, string, Params) -> Option<string>)
    requires Handle(req, verify, update).response.body.SuccessBody?
    ensures var out := Handle(req, verify, update);
      && out.response.status == 200
      && out.response.headers == CorsJson
      && UpdateCount(out.trace) == 1
      && var last := out.trace[|out.trace| - 1];
      && last.UpdatePaymentStatus?
      && out.response.body.txnId == last.txnId
      && out.response.body.status == last.status
      && update(last.txnId, last.status, last.params).None?
  {
    var out := Handle(req, verify, update);
    assert req.httpMethod != OptionsMethod && req.merchantSalt.Some? && req.merchantSalt.value != "";
    assert req.body.FormData?;
    var params := BuildParams(req.body.entries);
    assert verify(params, req.merchantSalt.value) && "status" in params;
    var checked := Checked(params, req.merchantSalt.value, true);
    assert out.trace == checked + [UpdatePaymentStatus(Get(params, "txnid"), Lower(params["status"]), params)];
    assert out.trace[..|out.trace| - 1] == checked;
  }

  /**
   An accepted signature with a `status` field and an update that completes
   give the default 200 success answer echoing the transaction id and the
   lowercased status.
   */
  lemma CompletedUpdateSucceeds(
    req: Request, verify: (Params, string) -> bool, update: (Option<string>, string, Params) -> Option<string>)
    requires req.httpMethod != OptionsMethod
    requires req.merchantSalt.Some? && req.merchantSalt.value != ""
    requires req.body.FormData?
    requires var params := BuildParams(req.body.entries);
      && verify(params, req.merchantSalt.value) && HasKey(req.body.entries, "status")
      && update(Get(params, "txnid"), Lower(params["status"]), params).None?
    ensures var params := BuildParams(req.body.entries);
      Handle(req, verify, update).response ==
        Response(200, CorsJson, SuccessBody(SuccessMessage, Get(params, "txnid"), Lower(params["status"])))
  {
  }

  /** An update that throws turns into the 500 error carrying its message. */
  lemma UpdateFailureIsError(
    req: Request, verify: (Params, string) -> bool, update: (Option<string>, string, Params) -> Option<string>)
    requires req.httpMethod != OptionsMethod
    requires req.merchantSalt.Some? && req.merchantSalt.value != ""
    requires req.body.FormData?
    requires var params := BuildParams(req.body.entries);
      && verify(params, req.merchantSalt.value) && HasKey(req.body.entries, "status")
      && update(Get(params, "txnid"), Lower(params["status"]), params).Some?
    ensures var params := BuildParams(req.body.entries);
      Handle(req, verify, update).response ==
        Response(500, CorsJson, ErrorBody(update(Get(params, "txnid"), Lower(params["status"]), params).value))
  {
  }

  /**
   No method is refused: apart from OPTIONS, the method has no influence on
   the outcome (there is no 405 path).
   */
  lemma MethodIsIgnored(
    req: Request, otherMethod: string,
    verify: (Params, string) -> bool, update: (Option<string>, string, Params) -> Option<string>)
    requires req.httpMethod != OptionsMethod && otherMethod != OptionsMethod
    ensures Handle(req.(httpMethod := otherMethod), verify, update) == Handle(req, verify, update)
  {
  }
}

=== FILE: plans.dfy ===
/**
 The subscription plans page: the plan price table, the monthly/yearly
 billing choice, and the subscribe handler's sequence of steps.

 The handler's collaborators are inputs: the signed-in user, the clock value
 `now` (milliseconds since the epoch) and the `payu-payment` function, which
 answers a payment request with an error or with the payment data.
 */
module Plans {
  import opened Wrappers
  import opened FormEntries
  import opened Toasts

  /** A plan as the handler uses it: its name and its two prices in US dollars. */
  datatype Plan = Plan(name: string, monthlyPrice: nat, yearlyPrice: nat)

  /** The plan table, in display order. */
  const Catalogue: seq<Plan> := [
    Plan("STARTER", 19, 190),
    Plan("DAILY", 39, 390),
    Plan("ENTERPRISE", 59, 590)
  ]

  /** The billing toggle's initial position: yearly. */
  const InitiallyYearly := true

  const MillisPerDay := 24 * 60 * 60 * 1000
  const YearlyDays := 365
  const MonthlyDays := 30

  const AuthRoute := "/auth"
  const PaymentFormMethod := "POST"
  const PaymentFormAction := "https://sandboxsecure.payu.in/_payment"
  const PendingStatus := "pending"

  const AuthRequiredToast := Toast("Authentication Required", "Please sign in to subscribe to a plan", true)
  const PaymentErrorToast := Toast("Payment Error",
    "There was an error processing your payment. Please try again.", true)

  datatype User = User(id: string, email: Option<string>)

  /** The body sent to the payment function. */
  datatype PaymentRequest = PaymentRequest(plan: string, email: Option<string>, amount: nat)

  /**
   The payment function's answer: an error, or data given as the object's
   entries in enumeration order (None when the data is null). An object's
   entries never repeat a key; `DistinctKeys` states this where it is needed.
   */
  datatype PaymentResponse = PaymentResponse(error: Option<string>, data: Option<seq<Entry>>)

  /** A hidden input of the payment form. */
  datatype Field = Field(name: string, value: string)

  datatype PaymentForm = PaymentForm(httpMethod: string, action: string, fields: seq<Field>)

  /** The row inserted into `subscriptions`. */
  datatype SubscriptionRecord = SubscriptionRecord(
    userId: string, planName: string, amount: nat, status: string,
    transactionId: Option<string>, validUntil: int)

  /** Observable steps of the handler. */
  datatype Step =
    | ShowToast(toast: Toast)
    | Navigate(route: string)
    | InvokePayment(request: PaymentRequest)
    | InsertSubscription(record: SubscriptionRecord)
    | SubmitForm(form: PaymentForm)

  datatype Outcome = Subscribed | NotAuthenticated | PaymentFailed

  datatype SubscribeResult = SubscribeResult(outcome: Outcome, steps: seq<Step>)

  /** Every plan's yearly price is ten monthly payments: two months free. */
  lemma YearlyIsTenMonths()
    ensures forall p :: p in Catalogue ==> p.yearlyPrice == 10 * p.monthlyPrice
  {
  }

  /** The amount charged for the chosen billing period. */
  function Amount(plan: Plan, isYearly: bool): (amount: nat)
    ensures isYearly ==> amount == plan.yearlyPrice
    ensures !isYearly ==> amount == plan.monthlyPrice
  {
    if isYearly then plan.yearlyPrice else plan.monthlyPrice
  }

  /** On the catalogue, a yearly charge is ten times the monthly one, and the page opens on it. */
  lemma YearlyChargeIsTenMonthly(plan: Plan)
    requires plan in Catalogue
    ensures Amount(plan, InitiallyYearly) == 10 * Amount(plan, false)
    ensures Amount(plan, InitiallyYearly) == plan.yearlyPrice
  {
  }

  /** Expiry of the subscription: 365 days after `now` when yearly, 30 days otherwise. */
  function ValidUntil(now: int, isYearly: bool): (expiry: int)
    ensures expiry > now
    ensures isYearly ==> expiry - now == 31_536_000_000
    ensures !isYearly ==> expiry - now == 2_592_000_000
  {
    now + (if isYearly then YearlyDays else MonthlyDays) * MillisPerDay
  }

  /** One hidden input per payment-data entry, in order, named by its key and holding its value. */
  function FormFields(data: seq<Entry>): (fields: seq<Field>)
    ensures |fields| == |data|
    ensures forall i :: 0 <= i < |data| ==> fields[i].name == data[i].0 && fields[i].value == data[i].1
  {
    if data == [] then []
    else [Field(data[0].0, data[0].1)] + FormFields(data[1..])
  }

  /** The `handleSubscribe` handler. */
  function Subscribe(
    user: Option<User>, plan: Plan, isYearly: bool, now: int,
    invoke: PaymentRequest -> PaymentResponse): (r: SubscribeResult)
    ensures r.outcome == NotAuthenticated <==> user.None?
    ensures r.outcome == NotAuthenticated ==> r.steps == [ShowToast(AuthRequiredToast), Navigate(AuthRoute)]
    ensures r.outcome != NotAuthenticated ==>
      |r.steps| >= 2 && r.steps[0] == InvokePayment(PaymentRequest(plan.name, user.value.email, Amount(plan, isYearly)))
    ensures r.outcome == PaymentFailed ==> r.steps == [r.steps[0], ShowToast(PaymentErrorToast)]
    ensures r.outcome == Subscribed ==>
      && |r.steps| == 3
      && r.steps[1].InsertSubscription?
      && r.steps[2].SubmitForm?
  {
    match user
    case None => SubscribeResult(NotAuthenticated, [ShowToast(AuthRequiredToast), Navigate(AuthRoute)])
    case Some(u) =>
      var amount := Amount(plan, isYearly);
      var request := PaymentRequest(plan.name, u.email, amount);
      var response := invoke(request);
      if response.error.Some? || response.data.None? then
        // a reported error is rethrown; null data makes Object.entries throw
        SubscribeResult(PaymentFailed, [InvokePayment(request), ShowToast(PaymentErrorToast)])
      else
        var paymentData := response.data.value;
        var form := PaymentForm(PaymentFormMethod, PaymentFormAction, FormFields(paymentData));
        var record := SubscriptionRecord(
          u.id, plan.name, amount, PendingStatus, LastValue(paymentData, "txnid"), ValidUntil(now, isYearly));
        SubscribeResult(Subscribed, [InvokePayment(request), InsertSubscription(record), SubmitForm(form)])
  }

  /** The steps that mention a payment call, an insert or a form submission. */
  predicate TouchesPayment(s: Step) {
    s.InvokePayment? || s.InsertSubscription? || s.SubmitForm?
  }

  /** Without a signed-in user: only the sign-in toast and the redirect, nothing paid, stored or submitted. */
  lemma SignedOutDoesNothing(
    plan: Plan, isYearly: bool, now: int, invoke: PaymentRequest -> PaymentResponse)
    ensures var r := Subscribe(None, plan, isYearly, now, invoke);
      && r.outcome == NotAuthenticated
      && r.steps[|r.steps| - 1] == Navigate(AuthRoute)
      && forall i :: 0 <= i < |r.steps| ==> !TouchesPayment(r.steps[i])
  {
  }

  /**
   A payment call answered with an error (or with no data) stores nothing and
   submits nothing; an error toast is shown instead.
   */
  lemma PaymentErrorStoresNothing(
    user: User, plan: Plan, isYearly: bool, now: int, invoke: PaymentRequest -> PaymentResponse)
    requires var response := invoke(PaymentRequest(plan.name, user.email, Amount(plan, isYearly)));
      response.error.Some? || response.data.None?
    ensures var r := Subscribe(Some(user), plan, isYearly, now, invoke);
      && r.outcome == PaymentFailed
      && r.steps[|r.steps| - 1] == ShowToast(PaymentErrorToast)
      && forall i :: 0 <= i < |r.steps| ==> !r.steps[i].InsertSubscription? && !r.steps[i].SubmitForm?
  {
  }

  /**
   A successful call: the pending record is inserted before the form is
   submitted; it names the plan, charges the amount that was sent to the
   payment function, carries the returned transaction id and expires one
   billing period after `now`; the form carries one field per data entry.
   */
  lemma SubscribedRecordMatchesPayment(
    user: User, plan: Plan, isYearly: bool, now: int, invoke: PaymentRequest -> PaymentResponse)
    requires var response := invoke(PaymentRequest(plan.name, user.email, Amount(plan, isYearly)));
      response.error.None? && response.data.Some?
    ensures var r := Subscribe(Some(user), plan, isYearly, now, invoke);
      var data := invoke(PaymentRequest(plan.name, user.email, Amount(plan, isYearly))).data.value;
      && r.outcome == Subscribed
      && r.steps[0].InvokePayment?
      && var sent := r.steps[0].request;
      && r.steps[1].InsertSubscription?
      && var record := r.steps[1].record;
      && record.status == PendingStatus
      && record.userId == user.id
      && record.planName == plan.name == sent.plan
      && record.amount == sent.amount
      && (isYearly ==> record.amount == plan.yearlyPrice)
      && (!isYearly ==> record.amount == plan.monthlyPrice)
      && record.transactionId == LastValue(data, "txnid")
      && record.validUntil == now + (if isYearly then 365 else 30) * 86_400_000
      && r.steps[2].SubmitForm?
      && r.steps[2].form.httpMethod == PaymentFormMethod
      && r.steps[2].form.action == PaymentFormAction
      && |r.steps[2].form.fields| == |data|
      && forall i :: 0 <= i < |data| ==>
           r.steps[2].form.fields[i] == Field(data[i].0, data[i].1)
  {
  }

  /**
   On payment data whose keys are distinct, as an object's entries are, the
   stored transaction id is the value of the submitted form's `txnid` field.
   */
  lemma StoredTxnIdIsSubmittedField(
    user: User, plan: Plan, isYearly: bool, now: int, invoke: PaymentRequest -> PaymentResponse, i: int)
    requires var response := invoke(PaymentRequest(plan.name, user.email, Amount(plan, isYearly)));
      && response.error.None? && response.data.Some?
      && DistinctKeys(response.data.value)
      && 0 <= i < |response.data.value| && response.data.value[i].0 == "txnid"
    ensures var r := Subscribe(Some(user), plan, isYearly, now, invoke);
      && r.steps[2].SubmitForm? && r.steps[2].form.fields[i].name == "txnid"
      && r.steps[1].InsertSubscription?
      && r.steps[1].record.transactionId == Some(r.steps[2].form.fields[i].value)
  {
    var data := invoke(PaymentRequest(plan.name, user.email, Amount(plan, isYearly))).data.value;
    DistinctKeysAllLast(data, i);
    LastValueAtLastOccurrence(data, i);
  }
}

=== FILE: sidebar_credits.dfy ===
/**
 Credit gating in the application sidebar: how many videos the user's credit
 balance buys, and where the "create video" and "AI agent" entries lead.
 */
module SidebarCredits {
  import opened Wrappers
  import opened Toasts

  /** The `user_credits` row, whose `credits_remaining` column may be null. */
  datatype CreditsRow = CreditsRow(creditsRemaining: Option<int>)

  /** Credits one video costs. */
  const VideoCost := 10
  /** Credits the AI agent requires. */
  const AIMinimumCredits := 1

  const PlansRoute := "/plans"
  const CreateVideoRoute := "/create-video"
  const AIAgentRoute := "/ai-agent"

  /** The effect of a click: an optional toast, then a navigation. */
  datatype Click = Click(toast: Option<Toast>, route: string)

  const VideoCreditsToast := Toast("Insufficient Credits",
    "You need at least 10 credits to create a video. Please purchase more credits.", true)
  const AICreditsToast := Toast("Insufficient Credits",
    "You need at least 1 credit to use the AI Agent. Please purchase more credits.", true)

  /**
   `userCredits?.credits_remaining || 0`: a missing row (still loading, or none
   found) and a null column both read as 0 credits.
   */
  function Credits(row: Option<CreditsRow>): (credits: int)
    ensures row.None? || row.value.creditsRemaining.None? ==> credits == 0
    ensures row.Some? && row.value.creditsRemaining.Some? ==> credits == row.value.creditsRemaining.value
  {
    match row
    case None => 0
    case Some(r) => r.creditsRemaining.GetOr(0)
  }

  /** `Math.floor(credits / 10)`: the number of whole videos the balance pays for. */
  function AvailableStories(credits: int): (videos: int)
    ensures VideoCost * videos <= credits < VideoCost * videos + VideoCost
    ensures credits >= 0 ==> videos >= 0
  {
    // Dafny's division by a positive divisor rounds toward negative infinity, as Math.floor does
    credits / VideoCost
  }

  /** `hasEnoughCredits`: the balance pays for a video. */
  predicate HasEnoughCredits(credits: int): (ok: bool)
    ensures ok <==> AvailableStories(credits) >= 1
  {
    credits >= VideoCost
  }

  /** `hasMinimumCreditsForAI`: at least one credit is left. */
  predicate HasMinimumCreditsForAI(credits: int): (ok: bool)
    ensures ok <==> credits > 0
  {
    credits >= AIMinimumCredits
  }

  /** Being able to afford a video is the same as having at least one video available. */
  lemma EnoughCreditsIffOneVideo(credits: int)
    ensures HasEnoughCredits(credits) <==> AvailableStories(credits) >= 1
  {
  }

  /** The video threshold is the stricter of the two. */
  lemma VideoGateImpliesAIGate(credits: int)
    ensures HasEnoughCredits(credits) ==> HasMinimumCreditsForAI(credits)
    ensures HasMinimumCreditsForAI(credits) && !HasEnoughCredits(credits) <==> 1 <= credits <= 9
  {
  }

  /** `handleCreateVideo`: to the plans page with a warning unless a video is affordable. */
  function HandleCreateVideo(credits: int): (click: Click)
    ensures click.route == PlansRoute <==> credits < VideoCost
    ensures click.route == CreateVideoRoute <==> AvailableStories(credits) >= 1
    ensures click.toast.Some? <==> click.route == PlansRoute
    ensures click.toast.Some? ==> click.toast.value.destructive
  {
    if !HasEnoughCredits(credits) then Click(Some(VideoCreditsToast), PlansRoute)
    else Click(None, CreateVideoRoute)
  }

  /** `handleAIAgentClick`: to the plans page with a warning unless at least one credit is left. */
  function HandleAIAgentClick(credits: int): (click: Click)
    ensures click.route == PlansRoute <==> credits < AIMinimumCredits
    ensures click.route == AIAgentRoute <==> credits >= 1
    ensures click.toast.Some? <==> click.route == PlansRoute
    ensures click.toast.Some? ==> click.toast.value.destructive
  {
    if !HasMinimumCreditsForAI(credits) then Click(Some(AICreditsToast), PlansRoute)
    else Click(None, AIAgentRoute)
  }

  /** Whenever a video can be created, the AI agent is reachable too. */
  lemma VideoAccessImpliesAIAccess(row: Option<CreditsRow>)
    ensures HandleCreateVideo(Credits(row)).route == CreateVideoRoute ==>
      HandleAIAgentClick(Credits(row)).route == AIAgentRoute
  {
  }

  /** With no credits record (or a null balance) both entries lead to the plans page. */
  lemma MissingCreditsGateEverything(row: Option<CreditsRow>)
    requires row.None? || row.value.creditsRemaining.None?
    ensures AvailableStories(Credits(row)) == 0
    ensures HandleCreateVideo(Credits(row)) == Click(Some(VideoCreditsToast), PlansRoute)
    ensures HandleAIAgentClick(Credits(row)) == Click(Some(AICreditsToast), PlansRoute)
  {
  }
}
